=== FILE: README.md ===
# Tic-Tac-Toe server, modelled in Dafny

This project models the core of a two-player Tic-Tac-Toe server. The server
has two player slots and a board of nine cells. It keeps a win counter for
each player and a draw counter. Each connected player's reader thread turns
messages into game actions: NAME, MOVE, RESTART and EXIT.

The project has five modules:

- `Board` holds the board, the eight winning lines in the order the server
  scans them, and `checkWin`. The Java `checkWin` dereferences the second
  and third cells of a line without a null test. The model therefore returns
  one of three results: a line was found, no line was found, or a
  `NullPointerException` was thrown (`NullDeref`). Lemmas give the exact
  condition for each result. One lemma shows the check is sound and complete
  whenever the board cannot trigger the exception.
- `Game` holds `handleMove` as a pure step on the game state: board, current
  player and counters. Lemmas cover the step's outcomes, the balance between
  marks and turn, the fact that a winner keeps the turn, and a run of moves
  and restarts (`Replay`). Concrete scenarios, played move by move from a
  new game, are the openings that crash, a repeated win and a draw.
- `Protocol` holds the messages the server sends and `Integer.parseInt`.
- `Server` holds the `TicTacToeServer` object and its `Player`s as classes
  whose fields are updated in place. Every send is appended to a ghost
  `outbox` of deliveries. The methods up to `handleMove`, `startNewGame`,
  `disconnect`, NAME and RESTART state exactly which messages go to which
  slot, and in what order; the reader-loop methods above them state that the
  outbox only grows. A thrown exception is a `thrown` result. Each method
  that changes the game state, up to `Dispatch` and `Receive`, is proved
  against the `Game` function it implements; `Run` states only counter
  invariants (see "Left out").
- `Wrappers` holds `Option`, which stands for a Java reference that may be
  null.

The model follows the code where the code and the intended game differ:

- There is no game-over state. After a win the winner keeps the turn and
  may keep writing into empty cells (`Game.WinnerKeepsTurn`); after a draw
  the last mover keeps the turn on a full board.
- `checkWin` throws on many ordinary boards: an opening move by X into cell
  0, 1, 2, 3 or 6 throws, one into 4, 5, 7 or 8 does not (`Game.Openings`).
  The exception reaches the reader's `catch`, and that player is
  disconnected.
- A winning move by a player whose slot is empty (the reader thread of a
  player who has been removed from its slot) throws when the winner's name
  is read, after MOVE has been broadcast and before any counter rises.
- A MOVE position outside 0..8 is not range-checked. On the mover's turn it
  throws `ArrayIndexOutOfBoundsException` (outcome `OutOfRange`); off turn
  the `||` stops before the array access, and the move is rejected with
  INVALID_MOVE.
- The field initialiser `"Player " + (index + 1)` runs before the
  constructor assigns `index`, so both players start out named "Player 1".

## Model

| member | source | states |
|---|---|---|
| Board.EmptyBoard | TicTacToeServer.java:16 | a new board has nine cells, all empty |
| Board.ScanFrom | TicTacToeServer.java:89-97 | no contract of its own: the scan of `checkWin` from one line on; characterised by ScanFromFound, ScanFromNullDeref and ScanFromNotFound |
| Board.ScanFromFound | TicTacToeServer.java:89-97 | the scan from line k returns true exactly when some later line is complete for the mark and no earlier line throws first |
| Board.ScanFromNullDeref | TicTacToeServer.java:89-97 | the scan throws exactly when some line starts with the mark and has a null second cell, or a null third cell after a matching second, with no complete line before it |
| Board.ScanFromNotFound | TicTacToeServer.java:89-97 | the scan returns false exactly when no remaining line is complete and none can throw |
| Board.ScanFromDecides | TicTacToeServer.java:89-97 | all three characterisations of the scan's result together |
| Board.CheckWin | TicTacToeServer.java:89-97 | no contract of its own: the scan from the first line; characterised by CheckWinWhenNullSafe and CheckWinSound |
| Board.CheckWinWhenNullSafe | TicTacToeServer.java:89-97 | on a board where every line starting with the mark has its other cells filled, checkWin never throws and returns true iff the mark owns a line |
| Board.CheckWinSound | TicTacToeServer.java:89-97 | true implies a line exists, false implies none exists, and a throw implies the board was not null-safe |
| Board.NullSafeNotNecessary | TicTacToeServer.java:89-97 | a board that is not null-safe may still be scanned without an exception: X in cell 0 with O in cell 1 leaves cell 2 empty, and the scan never dereferences it |
| Board.IsFull | TicTacToeServer.java:99-102 | no contract of its own: no cell is empty; Server.TicTacToeServer.IsDraw is proved to return it, and Game.Conclude draws exactly when it holds |
| Board.Count | TicTacToeServer.java:16 | the number of cells holding a mark is at most the board size |
| Board.CountsFit | TicTacToeServer.java:16 | the X marks and the O marks together never outnumber the cells of the board |
| Board.CountAfterPlace | TicTacToeServer.java:66 | writing a mark into an empty cell adds one to that mark's count and leaves the other mark's count unchanged |
| Board.CountBlank | TicTacToeServer.java:52 | an empty board holds no marks |
| Game.Settle | TicTacToeServer.java:71-86 | after the mover's mark is placed: checkWin throwing is a crash; a line found with the mover's slot empty throws reading the name (`WinnerGone`); a line found otherwise is a win; no line found is a draw iff the board is full and otherwise a continued game, the step `Game.Conclude` takes; each throw changes nothing further; a win credits exactly the mover's counter and keeps the turn; a draw adds one draw and keeps the turn; otherwise the turn passes and the counters stay |
| Game.Conclude | TicTacToeServer.java:78-86 | a draw happens exactly when the board is full and adds one draw; otherwise the turn passes with the counters unchanged |
| Game.Move | TicTacToeServer.java:59-87 | rejected iff it is not the mover's turn or the cell is taken; out of range iff it is the mover's turn and the position is outside 0..8; a rejected or out-of-range move changes nothing; a placed move writes the mover's mark into that empty cell and nowhere else; the counters never go down, with the per-outcome changes; `WinnerGone` only when the mover's slot is empty |
| Game.MoveVerdict | TicTacToeServer.java:71-101 | a win, or a throw reading the winner's name, means the mover owns a line; a draw means a full board without one; a continued game means neither; a throw means the board was not null-safe; on a null-safe board a placed move never throws in checkWin and wins exactly when it completes a line with the mover seated |
| Game.NewGame | TicTacToeServer.java:51-53 | no contract of its own: an empty board, X to move, the counters kept; characterised by NewGameBalanced and Server.TicTacToeServer.StartNewGame |
| Game.NewGameBalanced | TicTacToeServer.java:51-53 | a new game has no marks of either kind, so it is balanced with X to move; it keeps the counters and is valid when the old state was |
| Game.BalanceAfterMove | TicTacToeServer.java:60-86 | from a balanced state, where X's count minus O's count equals the current player, the state stays balanced iff the move was rejected, out of range, or passed the turn |
| Game.WinnerKeepsTurn | TicTacToeServer.java:60-76 | after a win, the winner's next move onto an empty cell is not rejected: there is no game-over check |
| Game.Apply | TicTacToeServer.java:51-87 | one move or restart keeps the state valid, never lowers a counter, and adds at most one to the counters' total |
| Game.Replay | TicTacToeServer.java:147-177 | a run of moves and restarts never lowers a counter and adds at most one to the total per step |
| Game.ReplayAppend | TicTacToeServer.java:147-177 | replaying two runs in sequence is replaying their concatenation |
| Game.Played | TicTacToeServer.java:59-87 | a run of moves that all pass the turn keeps the state valid and the counters unchanged |
| Game.PlayedAppend | TicTacToeServer.java:59-87 | playing two runs of moves one after the other is playing their concatenation |
| Game.PassesTurn | TicTacToeServer.java:60-86 | a move into an empty cell that completes no line, makes checkWin dereference nothing and leaves a cell empty writes the mark, passes the turn and keeps the counters |
| Game.WinsWhen | TicTacToeServer.java:60-76 | a move into an empty cell for which checkWin finds a line wins, credits the mover and keeps the turn |
| Game.DrawsWhen | TicTacToeServer.java:60-81 | a move into the last empty cell for which checkWin finds nothing is a draw |
| Game.Openings | TicTacToeServer.java:89-97 | X's opening move throws in checkWin iff its cell is 0, 1, 2, 3 or 6; any other opening passes the turn |
| Game.WinScenario | TicTacToeServer.java:59-87 | from a new game X4 O7 X5 O8 each pass the turn; X3 then wins for X and raises only p1Wins; X keeps the turn, and X1 wins again |
| Game.DrawScenario | TicTacToeServer.java:59-87 | from a new game X4 O1 X5 O2 X7 O8 X6 O3 each pass the turn; X0 then fills the board without a line and adds one draw |
| Protocol.ParseInt | TicTacToeServer.java:161 | a parsed value fits in 32 bits and comes from an optional sign followed by at least one digit, with the value those digits give, negated after '-'; every unsigned, '+'-signed or '-'-signed digit string whose value fits is parsed to that value; null and empty input fail |
| Protocol.Decimal | TicTacToeClient.java:221 | a non-negative number prints as a non-empty digit string with that value and no leading zero unless it is 0, as the client's `String.valueOf` of a cell index and the `index + 1` in the name at TicTacToeServer.java line 117 do |
| Protocol.ParseDecimal | TicTacToeServer.java:161 | a printed cell index parses back to itself |
| Server.Player.constructor | TicTacToeServer.java:116-122 | a new player is connected, has the given index and is named "Player 1" |
| Server.TicTacToeServer.constructor | TicTacToeServer.java:14-17 | two empty slots, an empty board, X to move, all counters zero |
| Server.TicTacToeServer.Recipients | TicTacToeServer.java:104-110 | no contract of its own: the slots `broadcast` reaches; characterised by ReachedExactly and proved to be what Server.TicTacToeServer.Broadcast delivers to |
| Server.TicTacToeServer.BothNamed | TicTacToeServer.java:155-156 | no contract of its own: both slots hold a player with a non-null name, the BOTH_READY test; Server.TicTacToeServer.Rename sends BOTH_READY exactly when it holds |
| Server.TicTacToeServer.ReachedExactly | TicTacToeServer.java:104-110 | the broadcast recipients are exactly the occupied, connected slots other than the leaving player, in slot order, each once |
| Server.Throws | TicTacToeServer.java:59-87 | no contract of its own: whether a `handleMove` step throws (INVALID_MOVE or YOUR_TURN to an empty slot, an index out of range, a null cell in `checkWin`, the winner's name from an empty slot); Server.TicTacToeServer.HandleMove throws exactly when it holds |
| Server.Verdict | TicTacToeServer.java:71-86 | no contract of its own: WIN or DRAW to every live slot, or YOUR_TURN and the opponent-moved MESSAGE, nothing after a throw; Server.TicTacToeServer.Settle and Conclude are proved to send it |
| Server.Sends | TicTacToeServer.java:59-87 | no contract of its own: INVALID_MOVE to the mover on a rejection, nothing out of range, otherwise MOVE, the wait MESSAGE and the verdict; Server.TicTacToeServer.HandleMove is proved to send it |
| Server.NewGameSends | TicTacToeServer.java:54-56 | no contract of its own: START to every live slot, then, unless slot 0 is empty, WELCOME and YOUR_TURN to slot 0; Server.TicTacToeServer.StartNewGame, Seat and Restart are proved to send it |
| Server.TicTacToeServer.SendTo | TicTacToeServer.java:131-134 | a send to an occupied slot delivers exactly one message to that slot; a send to an empty slot throws and delivers nothing |
| Server.TicTacToeServer.Broadcast | TicTacToeServer.java:104-110 | one delivery of the message to each occupied, connected slot, in slot order, and nothing else |
| Server.TicTacToeServer.CheckWin | TicTacToeServer.java:89-97 | the loop returns the result `Board.CheckWin` gives for the current board |
| Server.TicTacToeServer.IsDraw | TicTacToeServer.java:99-102 | returns true iff no cell is empty |
| Server.TicTacToeServer.DeclareWin | TicTacToeServer.java:72-75 | throws iff the mover's slot is empty, then changing nothing; otherwise credits the mover and broadcasts WIN with the new counters |
| Server.TicTacToeServer.DeclareDraw | TicTacToeServer.java:78-81 | adds one draw and broadcasts DRAW with the new counters |
| Server.TicTacToeServer.PassTurn | TicTacToeServer.java:84-86 | the turn flips; YOUR_TURN goes to the new current player, then the opponent-moved MESSAGE is broadcast; an empty slot throws before the broadcast |
| Server.TicTacToeServer.Conclude | TicTacToeServer.java:78-86 | the state takes the `Game.Conclude` step; the sends and the exception are the ones that step determines |
| Server.TicTacToeServer.Settle | TicTacToeServer.java:71-86 | the state takes the `Game.Settle` step for the mover's slot as it is; a throw from checkWin or from reading the winner's name sends nothing more |
| Server.TicTacToeServer.Play | TicTacToeServer.java:65-86 | the state takes the `Game.Move` step; MOVE and the wait MESSAGE are broadcast before the verdict's messages |
| Server.TicTacToeServer.HandleMove | TicTacToeServer.java:59-87 | the state takes exactly the `Game.Move` step for the mover's slot as it is; INVALID_MOVE goes only to the mover, and throws when the mover's slot is empty; an out-of-range position throws with nothing sent; a win with the mover's slot empty throws after MOVE and the wait MESSAGE, crediting nothing; otherwise the sends are MOVE, then the wait MESSAGE, then WIN, DRAW or YOUR_TURN plus the opponent-moved MESSAGE |
| Server.TicTacToeServer.StartNewGame | TicTacToeServer.java:51-57 | a fresh empty board and X to move, counters kept; START is broadcast; then it throws iff slot 0 is empty, and otherwise WELCOME is broadcast and YOUR_TURN goes to slot 0, and nothing else is sent |
| Server.TicTacToeServer.Disconnect | TicTacToeServer.java:140-145 | the player is marked disconnected and its slot emptied; the other slot and the game state are unchanged; OPPONENT_LEFT reaches every live slot except the leaver's |
| Server.TicTacToeServer.Seat | TicTacToeServer.java:32-43 | a slot that is empty or disconnected gets a fresh connected player named "Player 1"; seating slot 1 starts a new game, which throws iff slot 0 is empty and sends what `startNewGame` sends; otherwise nothing else changes and nothing is sent |
| Server.TicTacToeServer.Rename | TicTacToeServer.java:153-159 | the name becomes the content, null included; BOTH_READY is broadcast exactly when both slots hold a player with a non-null name |
| Server.TicTacToeServer.MoveCommand | TicTacToeServer.java:160-175 | unparsable content disconnects the player; otherwise the state takes the move's `Game.Move` step, and the player is disconnected exactly when that step throws |
| Server.TicTacToeServer.Restart | TicTacToeServer.java:164-167 | a new game starts iff both slots are occupied, sending START, WELCOME and YOUR_TURN to slot 0; otherwise nothing changes and nothing is sent |
| Server.TicTacToeServer.Dispatch | TicTacToeServer.java:152-175 | a null type or EXIT disconnects and ends the loop; NAME, RESTART and unknown types never end it; unknown types send nothing; the state is the replay of at most one game event |
| Server.TicTacToeServer.Receive | TicTacToeServer.java:151-176 | a null object ends the loop without a disconnect, a send or any other change; a failed read disconnects; a message changes the state by at most one event and never lowers a counter |
| Server.TicTacToeServer.Run | TicTacToeServer.java:148-177 | the loop reads until a null object, a failed read, an exception or EXIT; whenever it stops early the last read was a null object or the player has left; no counter goes down; the total rises by at most one per read; sent messages are never taken back |

## Left out

- Sockets, object streams, the thread pool and the blocking `accept` are not modelled. A read is an input value (`Read`); a send is a delivery appended to the ghost `outbox`.
- Server.TicTacToeServer.SendTo: an `IOException` from `send` disconnects the receiver (lines 135-137); the model assumes writes succeed, because the network is not modelled.
- Message texts are left out: the winner's name in WIN, the player's name in WELCOME, and the fixed MESSAGE strings. Messages carry only their type, the move and mark for MOVE, and the counters.
- Counters are unbounded naturals. Java's 32-bit wrap-around after 2^31 games is not modelled.
- Protocol.ParseInt: accepts ASCII digits only, while `Integer.parseInt` also accepts other Unicode decimal digits.
- Server.TicTacToeServer.Seat: a `NullPointerException` from `startNewGame` inside `start()` would end the accept loop. The model only reports it as `thrown`, and the accept loop itself (an endless `while (true)`) is not modelled.
- Server.TicTacToeServer.Run: its contract states the counter invariants and why the loop stopped, but not the exact `Replay` of the events it caused. Each single step (`Receive`, `Dispatch`) states its `Replay`.
- Server.TicTacToeServer.MoveCommand: states that the outbox only grows, not which messages `handleMove` and a following `disconnect` sent; `HandleMove` and `Disconnect` state those exactly.
- Server.TicTacToeServer.Dispatch: states that the outbox only grows for NAME, MOVE, RESTART and EXIT, and that it is unchanged for an unknown type; `Rename`, `MoveCommand`, `Restart` and `Disconnect` state the sends.
- Server.TicTacToeServer.Receive: for a message, states that the outbox only grows, as `Dispatch` does.
- The two reader threads run concurrently, and `disconnect`, `broadcast` and the NAME branch are not synchronized. The model treats each message as one atomic step, so interleavings inside a step are not captured.
- The client program, `GameData` and `GameMessage` serialization are not part of this model.

=== FILE: board.dfy ===
/**
 * The 3x3 board of the server and the two read-only scans over it:
 * `checkWin`, exactly as written (including the cells it dereferences without
 * a null check), and `isDraw`.
 */
module Board {
  import opened Wrappers

  /** The two marks; a cell holds "X", "O" or null. */
  datatype Mark = X | O

  /** A cell: `None` is the empty (null) cell. */
  type Cell = Option<Mark>

  /** A board is nine cells, numbered row by row from 0. */
  type Cells = seq<Cell>

  const Size: nat := 9

  /** The eight winning lines, in the order `checkWin` scans them. */
  const Lines: seq<(nat, nat, nat)> :=
    [(0, 1, 2), (3, 4, 5), (6, 7, 8), (0, 3, 6), (1, 4, 7), (2, 5, 8), (0, 4, 8), (2, 4, 6)]

  function EmptyBoard(): (b: Cells)
    ensures |b| == Size && forall i | 0 <= i < |b| :: b[i] == None
  {
    seq(Size, _ => None)
  }

  /** Line k is entirely `mark`. */
  predicate Complete(b: Cells, k: nat, mark: Mark)
    requires |b| == Size && k < |Lines|
  {
    var (x, y, z) := Lines[k];
    b[x] == Some(mark) && b[y] == Some(mark) && b[z] == Some(mark)
  }

  /**
   * Line k makes `checkWin(mark)` dereference an empty cell: its first cell
   * is `mark` and either its second cell is empty, or its second cell is
   * `mark` and its third is empty.
   */
  predicate Hazard(b: Cells, k: nat, mark: Mark)
    requires |b| == Size && k < |Lines|
  {
    var (x, y, z) := Lines[k];
    b[x] == Some(mark) && (b[y] == None || (b[y] == Some(mark) && b[z] == None))
  }

  /** The reference notion of winning: some line is entirely `mark`. */
  predicate HasLine(b: Cells, mark: Mark)
    requires |b| == Size
  {
    exists k | 0 <= k < |Lines| :: Complete(b, k, mark)
  }

  /** The condition under which `checkWin(mark)` cannot dereference null. */
  predicate NullSafe(b: Cells, mark: Mark)
    requires |b| == Size
  {
    forall k | 0 <= k < |Lines| ::
      b[Lines[k].0] == Some(mark) ==> b[Lines[k].1] != None && b[Lines[k].2] != None
  }

  /** How a scan of `checkWin` ends: `return true`, `return false`, or a NullPointerException. */
  datatype Scan = Found | NotFound | NullDeref

  /**
   * `checkWin(mark)` from line k on. The first cell is null-checked; the
   * second and third are compared with `equals` on the cell itself, so an
   * empty one throws, and `&&` stops at the first comparison that fails.
   */
  function ScanFrom(b: Cells, mark: Mark, k: nat): Scan
    requires |b| == Size && k <= |Lines|
    decreases |Lines| - k
  {
    if k == |Lines| then NotFound
    else
      var (x, y, z) := Lines[k];
      if b[x] != None && b[x] == Some(mark) then
        if b[y] == None then NullDeref
        else if b[y] != Some(mark) then ScanFrom(b, mark, k + 1)
        else if b[z] == None then NullDeref
        else if b[z] == Some(mark) then Found
        else ScanFrom(b, mark, k + 1)
      else ScanFrom(b, mark, k + 1)
  }

  /** The scan from line k answers true exactly when a complete line comes, from k on, before any hazard. */
  lemma {:induction false} ScanFromFound(b: Cells, mark: Mark, k: nat)
    requires |b| == Size && k <= |Lines|
    ensures ScanFrom(b, mark, k) == Found <==>
      exists j | k <= j < |Lines| :: Complete(b, j, mark) && forall i | k <= i < j :: !Hazard(b, i, mark)
    decreases |Lines| - k
  {
    if k < |Lines| {
      ScanFromFound(b, mark, k + 1);
      if Complete(b, k, mark) {
        assert !Hazard(b, k, mark) && ScanFrom(b, mark, k) == Found;
      } else if Hazard(b, k, mark) {
        assert ScanFrom(b, mark, k) == NullDeref;
      } else {
        assert ScanFrom(b, mark, k) == ScanFrom(b, mark, k + 1);
        assert (exists j | k <= j < |Lines| :: Complete(b, j, mark) && forall i | k <= i < j :: !Hazard(b, i, mark)) <==>
          (exists j | k + 1 <= j < |Lines| :: Complete(b, j, mark) && forall i | k + 1 <= i < j :: !Hazard(b, i, mark));
      }
    }
  }

  /** The scan from line k throws exactly when a hazard comes, from k on, before any complete line. */
  lemma {:induction false} ScanFromNullDeref(b: Cells, mark: Mark, k: nat)
    requires |b| == Size && k <= |Lines|
    ensures ScanFrom(b, mark, k) == NullDeref <==>
      exists j | k <= j < |Lines| :: Hazard(b, j, mark) && forall i | k <= i < j :: !Complete(b, i, mark)
    decreases |Lines| - k
  {
    if k < |Lines| {
      ScanFromNullDeref(b, mark, k + 1);
      if Complete(b, k, mark) {
        assert !Hazard(b, k, mark) && ScanFrom(b, mark, k) == Found;
      } else if Hazard(b, k, mark) {
        assert ScanFrom(b, mark, k) == NullDeref;
      } else {
        assert ScanFrom(b, mark, k) == ScanFrom(b, mark, k + 1);
        assert (exists j | k <= j < |Lines| :: Hazard(b, j, mark) && forall i | k <= i < j :: !Complete(b, i, mark)) <==>
          (exists j | k + 1 <= j < |Lines| :: Hazard(b, j, mark) && forall i | k + 1 <= i < j :: !Complete(b, i, mark));
      }
    }
  }

  /** The scan from line k answers false exactly when no line from k on is complete or a hazard. */
  lemma {:induction false} ScanFromNotFound(b: Cells, mark: Mark, k: nat)
    requires |b| == Size && k <= |Lines|
    ensures ScanFrom(b, mark, k) == NotFound <==>
      forall j | k <= j < |Lines| :: !Complete(b, j, mark) && !Hazard(b, j, mark)
    decreases |Lines| - k
  {
    if k < |Lines| {
      ScanFromNotFound(b, mark, k + 1);
      if Complete(b, k, mark) {
        assert !Hazard(b, k, mark) && ScanFrom(b, mark, k) == Found;
      } else if Hazard(b, k, mark) {
        assert ScanFrom(b, mark, k) == NullDeref;
      } else {
        assert ScanFrom(b, mark, k) == ScanFrom(b, mark, k + 1);
      }
    }
  }

  /**
   * The scan from line k is decided by the first line, from k on, that is
   * complete (a win) or a hazard (a NullPointerException); with neither,
   * it answers false.
   */
  lemma ScanFromDecides(b: Cells, mark: Mark, k: nat)
    requires |b| == Size && k <= |Lines|
    ensures ScanFrom(b, mark, k) == Found <==>
      exists j | k <= j < |Lines| :: Complete(b, j, mark) && forall i | k <= i < j :: !Hazard(b, i, mark)
    ensures ScanFrom(b, mark, k) == NullDeref <==>
      exists j | k <= j < |Lines| :: Hazard(b, j, mark) && forall i | k <= i < j :: !Complete(b, i, mark)
    ensures ScanFrom(b, mark, k) == NotFound <==>
      forall j | k <= j < |Lines| :: !Complete(b, j, mark) && !Hazard(b, j, mark)
  {
    ScanFromFound(b, mark, k);
    ScanFromNullDeref(b, mark, k);
    ScanFromNotFound(b, mark, k);
  }

  /** `checkWin(mark)` on the whole board. */
  function CheckWin(b: Cells, mark: Mark): Scan
    requires |b| == Size
  {
    ScanFrom(b, mark, 0)
  }

  /**
   * When no line starting with `mark` has an empty second or third cell,
   * `checkWin` does not throw, and it answers true exactly when some line is
   * entirely `mark`.
   */
  lemma CheckWinWhenNullSafe(b: Cells, mark: Mark)
    requires |b| == Size && NullSafe(b, mark)
    ensures CheckWin(b, mark) != NullDeref
    ensures CheckWin(b, mark) == Found <==> HasLine(b, mark)
  {
    ScanFromDecides(b, mark, 0);
    forall k | 0 <= k < |Lines| ensures !Hazard(b, k, mark) {
      var (x, y, z) := Lines[k];
      assert b[x] == Some(mark) ==> b[y] != None && b[z] != None;
    }
  }

  /** Whatever the board, `checkWin` never reports a win that is not there, and never misses one without throwing. */
  lemma CheckWinSound(b: Cells, mark: Mark)
    requires |b| == Size
    ensures CheckWin(b, mark) == Found ==> HasLine(b, mark)
    ensures CheckWin(b, mark) == NotFound ==> !HasLine(b, mark)
    ensures CheckWin(b, mark) == NullDeref ==> !NullSafe(b, mark)
  {
    ScanFromDecides(b, mark, 0);
    if CheckWin(b, mark) == NullDeref {
      var j :| 0 <= j < |Lines| && Hazard(b, j, mark);
      var (x, y, z) := Lines[j];
      assert b[x] == Some(mark) && (b[y] == None || b[z] == None);
    }
  }

  /**
   * The null-safety condition is sufficient but not necessary: when the
   * second cell of a line holds the other mark, `&&` stops before the empty
   * third cell is dereferenced.
   */
  lemma NullSafeNotNecessary()
    ensures var b := [Some(X), Some(O), None, Some(O), Some(O), None, None, None, None];
      !NullSafe(b, X) && CheckWin(b, X) == NotFound
  {
    var b := [Some(X), Some(O), None, Some(O), Some(O), None, None, None, None];
    ScanFromDecides(b, X, 0);
    assert b[Lines[0].0] == Some(X) && b[Lines[0].2] == None;
    forall k | 0 <= k < |Lines| ensures !Complete(b, k, X) && !Hazard(b, k, X) {
      assert k in {0, 1, 2, 3, 4, 5, 6, 7};
    }
  }

  /** `isDraw`: no cell is empty. */
  predicate IsFull(b: Cells)
  {
    forall i | 0 <= i < |b| :: b[i] != None
  }

  /** The number of cells holding `mark`. */
  function Count(b: Cells, mark: Mark): (n: nat)
    ensures n <= |b|
  {
    if b == [] then 0 else Count(b[..|b| - 1], mark) + (if b[|b| - 1] == Some(mark) then 1 else 0)
  }

  /** The two marks together occupy at most the cells of the board. */
  lemma {:induction false} CountsFit(b: Cells)
    ensures Count(b, X) + Count(b, O) <= |b|
  {
    if b != [] {
      CountsFit(b[..|b| - 1]);
    }
  }

  /** Filling an empty cell with `mark` adds one `mark` and leaves the count of the other mark alone. */
  lemma {:induction false} CountAfterPlace(b: Cells, pos: nat, mark: Mark, other: Mark)
    requires pos < |b| && b[pos] == None && other != mark
    ensures Count(b[pos := Some(mark)], mark) == Count(b, mark) + 1
    ensures Count(b[pos := Some(mark)], other) == Count(b, other)
  {
    var b' := b[pos := Some(mark)];
    if pos == |b| - 1 {
      assert b'[..|b'| - 1] == b[..|b| - 1];
    } else {
      assert b'[..|b'| - 1] == b[..|b| - 1][pos := Some(mark)];
      CountAfterPlace(b[..|b| - 1], pos, mark, other);
    }
  }

  /** A board with no marks counts none of either. */
  lemma {:induction false} CountBlank(b: Cells, mark: Mark)
    requires forall i | 0 <= i < |b| :: b[i] == None
    ensures Count(b, mark) == 0
  {
    if b != [] {
      CountBlank(b[..|b| - 1], mark);
    }
  }
}

=== FILE: game.dfy ===
/**
 * The game part of the server's state (board, turn, score counters) as a
 * value, and the effect of `handleMove` and `startNewGame` on it. The server
 * class is proved to follow these functions; the lemmas here state what
 * they promise.
 */
module Game {
  import opened Wrappers
  import opened Board

  /** `p1Wins`, `p2Wins` and `draws`. */
  datatype Scores = Scores(p1Wins: int, p2Wins: int, draws: int)

  /** The board, `currentPlayer` (0 plays X, 1 plays O) and the counters. */
  datatype State = State(board: Cells, current: int, scores: Scores)

  predicate Valid(g: State)
  {
    |g.board| == Size && (g.current == 0 || g.current == 1) &&
    g.scores.p1Wins >= 0 && g.scores.p2Wins >= 0 && g.scores.draws >= 0
  }

  /** Player 0 writes "X", player 1 writes "O". */
  function MarkOf(player: int): Mark
  {
    if player == 0 then X else O
  }

  /** No counter went down. */
  predicate NoneDecreased(before: Scores, after: Scores)
  {
    before.p1Wins <= after.p1Wins && before.p2Wins <= after.p2Wins && before.draws <= after.draws
  }

  function Total(s: Scores): int
  {
    s.p1Wins + s.p2Wins + s.draws
  }

  /** The win counter of `player` rose by one; the other two counters are as they were. */
  predicate CreditedWin(before: Scores, after: Scores, player: int)
  {
    if player == 0 then after == before.(p1Wins := before.p1Wins + 1)
    else after == before.(p2Wins := before.p2Wins + 1)
  }

  /** `p1Wins++` for player 0, `p2Wins++` otherwise. */
  function Credit(s: Scores, player: int): Scores
  {
    if player == 0 then s.(p1Wins := s.p1Wins + 1) else s.(p2Wins := s.p2Wins + 1)
  }

  /**
   * How `handleMove` ends:
   * Rejected   -- INVALID_MOVE to the mover (wrong turn or occupied cell);
   * OutOfRange -- `board[position]` threw, nothing changed;
   * Crashed    -- the mark was placed, then `checkWin` dereferenced an empty cell;
   * WinnerGone -- the mark completed a line, then reading the name of the
   *               mover, whose slot is empty, threw before any counter rose;
   * Won, Drawn, Continued -- the three normal endings.
   */
  datatype Outcome = Rejected | OutOfRange | Crashed | WinnerGone | Won | Drawn | Continued

  datatype Step = Step(next: State, outcome: Outcome)

  /** The mark was written, i.e. the move passed both checks. */
  predicate Placed(o: Outcome)
  {
    o == Crashed || o == WinnerGone || o == Won || o == Drawn || o == Continued
  }

  /**
   * The second half of `handleMove`, once `player`'s mark is on the board:
   * `checkWin` first, then `isDraw`, else the turn passes. `seated` says
   * whether the mover's slot holds a player, whose name a win reads.
   */
  function Settle(g: State, player: int, seated: bool): (r: Step)
    requires Valid(g) && (player == 0 || player == 1) && g.current == player
    ensures Valid(r.next) && Placed(r.outcome) && r.next.board == g.board
    ensures r.outcome == Crashed || r.outcome == WinnerGone ==> r.next == g
    ensures r.outcome == Crashed <==> CheckWin(g.board, MarkOf(player)) == NullDeref
    ensures r.outcome == WinnerGone <==> CheckWin(g.board, MarkOf(player)) == Found && !seated
    ensures r.outcome == Won <==> CheckWin(g.board, MarkOf(player)) == Found && seated
    ensures r.outcome == Drawn <==> CheckWin(g.board, MarkOf(player)) == NotFound && IsFull(g.board)
    ensures r.outcome == Continued <==> CheckWin(g.board, MarkOf(player)) == NotFound && !IsFull(g.board)
    ensures CheckWin(g.board, MarkOf(player)) == NotFound ==> r == Conclude(g)
    ensures r.outcome == Won ==> CreditedWin(g.scores, r.next.scores, player) && r.next.current == g.current
    ensures r.outcome == Drawn ==>
      r.next.scores == g.scores.(draws := g.scores.draws + 1) && r.next.current == g.current
    ensures r.outcome == Continued ==> r.next.scores == g.scores && r.next.current == 1 - g.current
  {
    var mark := MarkOf(player);
    match CheckWin(g.board, mark)
    case NullDeref => Step(g, Crashed)
    case Found => if seated then Step(g.(scores := Credit(g.scores, player)), Won) else Step(g, WinnerGone)
    case NotFound => Conclude(g)
  }

  /** The part of `Settle` after `checkWin` answered false: `isDraw`, else the turn passes. */
  function Conclude(g: State): (r: Step)
    requires Valid(g)
    ensures Valid(r.next) && r.next.board == g.board
    ensures r.outcome == Drawn <==> IsFull(g.board)
    ensures r.outcome == Drawn ==>
      r.next.scores == g.scores.(draws := g.scores.draws + 1) && r.next.current == g.current
    ensures r.outcome != Drawn ==> r.outcome == Continued && r.next.scores == g.scores && r.next.current == 1 - g.current
  {
    if IsFull(g.board) then Step(g.(scores := g.scores.(draws := g.scores.draws + 1)), Drawn)
    else Step(g.(current := 1 - g.current), Continued)
  }

  /** `handleMove(player, pos)` on the game state; `seated` says whether slot `player` holds a player. */
  function Move(g: State, player: int, pos: int, seated: bool): (r: Step)
    requires Valid(g) && (player == 0 || player == 1)
    ensures Valid(r.next) && NoneDecreased(g.scores, r.next.scores)
    ensures r.outcome == Rejected <==> player != g.current || (0 <= pos < Size && g.board[pos] != None)
    ensures r.outcome == OutOfRange <==> player == g.current && !(0 <= pos < Size)
    ensures !Placed(r.outcome) ==> r.next == g
    ensures Placed(r.outcome) ==>
      0 <= pos < Size && g.board[pos] == None && r.next.board == g.board[pos := Some(MarkOf(player))]
    ensures r.outcome == Crashed || r.outcome == WinnerGone ==> r.next.scores == g.scores && r.next.current == g.current
    ensures r.outcome == WinnerGone ==> !seated
    ensures r.outcome == Won ==> seated && CreditedWin(g.scores, r.next.scores, player) && r.next.current == g.current
    ensures r.outcome == Drawn ==>
      r.next.scores == g.scores.(draws := g.scores.draws + 1) && r.next.current == g.current
    ensures r.outcome == Continued ==> r.next.scores == g.scores && r.next.current == 1 - g.current
  {
    if player != g.current then Step(g, Rejected)
    else if !(0 <= pos < Size) then Step(g, OutOfRange)
    else if g.board[pos] != None then Step(g, Rejected)
    else Settle(g.(board := g.board[pos := Some(MarkOf(player))]), player, seated)
  }

  /**
   * What decides the ending of a placed move: a win is checked before a
   * draw; a draw needs a full board without a line for the mover; a move on
   * a board that is null-safe for the mover never crashes in `checkWin`, and
   * wins exactly when it completes a line and the mover is seated.
   */
  lemma MoveVerdict(g: State, player: int, pos: int, seated: bool)
    requires Valid(g) && (player == 0 || player == 1)
    ensures var r := Move(g, player, pos, seated); var m := MarkOf(player);
      (r.outcome == Won || r.outcome == WinnerGone ==> HasLine(r.next.board, m)) &&
      (r.outcome == Drawn ==> !HasLine(r.next.board, m) && IsFull(r.next.board)) &&
      (r.outcome == Continued ==> !HasLine(r.next.board, m) && !IsFull(r.next.board)) &&
      (r.outcome == Crashed ==> !NullSafe(r.next.board, m)) &&
      (Placed(r.outcome) && NullSafe(r.next.board, m) ==>
        r.outcome != Crashed && (r.outcome == Won <==> seated && HasLine(r.next.board, m)))
  {
    var r := Move(g, player, pos, seated);
    if Placed(r.outcome) {
      var m := MarkOf(player);
      CheckWinSound(r.next.board, m);
      if NullSafe(r.next.board, m) {
        CheckWinWhenNullSafe(r.next.board, m);
      }
    }
  }

  /** `startNewGame`: a fresh board, X to move, the counters kept. */
  function NewGame(g: State): State
  {
    State(EmptyBoard(), 0, g.scores)
  }

  /** Marks on the board agree with the turn: X has moved once more than O exactly when O is to move. */
  predicate Balanced(g: State)
  {
    Count(g.board, X) - Count(g.board, O) == g.current
  }

  /** A new game holds no marks, so it is balanced; it keeps the counters. */
  lemma NewGameBalanced(g: State)
    ensures Count(NewGame(g).board, X) == 0 && Count(NewGame(g).board, O) == 0
    ensures Balanced(NewGame(g)) && NewGame(g).scores == g.scores
    ensures Valid(g) ==> Valid(NewGame(g))
  {
    CountBlank(EmptyBoard(), X);
    CountBlank(EmptyBoard(), O);
  }

  /**
   * A rejected move and a move that hands the turn over keep the marks in
   * step with the turn; every other ending leaves the mover with the turn and
   * one mark too many, so the balance is lost.
   */
  lemma BalanceAfterMove(g: State, player: int, pos: int, seated: bool)
    requires Valid(g) && (player == 0 || player == 1) && Balanced(g)
    ensures var r := Move(g, player, pos, seated);
      (Balanced(r.next) <==> !Placed(r.outcome) || r.outcome == Continued)
  {
    var r := Move(g, player, pos, seated);
    if Placed(r.outcome) {
      CountAfterPlace(g.board, pos, MarkOf(player), MarkOf(1 - player));
    }
  }

  /**
   * There is no game-over check: after a win the turn stays with the winner,
   * who may go on writing into any empty cell.
   */
  lemma WinnerKeepsTurn(g: State, player: int, pos: int, q: int, seated: bool)
    requires Valid(g) && (player == 0 || player == 1)
    requires Move(g, player, pos, true).outcome == Won
    requires 0 <= q < Size && Move(g, player, pos, true).next.board[q] == None
    ensures Move(Move(g, player, pos, true).next, player, q, seated).outcome != Rejected
  {
  }

  /** One atomic step of the server as seen by the game state. */
  datatype Event = MoveBy(player: int, pos: int, seated: bool) | Restart

  predicate Players(evs: seq<Event>)
  {
    forall i | 0 <= i < |evs| :: evs[i].MoveBy? ==> evs[i].player == 0 || evs[i].player == 1
  }

  /**
   * The game state after a run of atomic steps from both players: counters
   * are never decreased, and each step adds at most one to their total.
   */
  function Replay(g: State, evs: seq<Event>): (r: State)
    requires Valid(g) && Players(evs)
    ensures Valid(r) && NoneDecreased(g.scores, r.scores)
    ensures Total(r.scores) <= Total(g.scores) + |evs|
    decreases |evs|
  {
    if evs == [] then g else Replay(Apply(g, evs[0]), evs[1..])
  }

  /** One step of `Replay`. */
  function Apply(g: State, e: Event): (r: State)
    requires Valid(g) && (e.MoveBy? ==> e.player == 0 || e.player == 1)
    ensures Valid(r) && NoneDecreased(g.scores, r.scores) && Total(r.scores) <= Total(g.scores) + 1
  {
    match e
    case MoveBy(player, pos, seated) => Move(g, player, pos, seated).next
    case Restart => NewGame(g)
  }

  /** Replaying two runs one after the other is replaying their concatenation. */
  lemma {:induction false} ReplayAppend(g: State, a: seq<Event>, b: seq<Event>)
    requires Valid(g) && Players(a) && Players(b)
    ensures Players(a + b) && Replay(g, a + b) == Replay(Replay(g, a), b)
    decreases |a|
  {
    assert Players(a + b) by {
      forall i | 0 <= i < |a + b| && (a + b)[i].MoveBy?
        ensures (a + b)[i].player == 0 || (a + b)[i].player == 1
      {
        if i >= |a| {
          assert (a + b)[i] == b[i - |a|];
        }
      }
    }
    if a == [] {
      assert a + b == b;
    } else {
      assert (a + b)[0] == a[0] && (a + b)[1..] == a[1..] + b;
      ReplayAppend(Apply(g, a[0]), a[1..], b);
    }
  }

  /**
   * The state reached when the cells `ps` are played in order from `g`, each
   * by the player to move (seated), provided every move is accepted and
   * passes the turn; `None` as soon as one does not. The counters never
   * change on such a run.
   */
  function Played(g: State, ps: seq<int>): (r: Option<State>)
    requires Valid(g)
    ensures r.Some? ==> Valid(r.value) && r.value.scores == g.scores
    decreases |ps|
  {
    if ps == [] then Some(g)
    else
      var m := Move(g, g.current, ps[0], true);
      if m.outcome == Continued then Played(m.next, ps[1..]) else None
  }

  /** Playing `a + b` is playing `a` and then, if every move of it passed the turn, `b`. */
  lemma {:induction false} PlayedAppend(g: State, a: seq<int>, b: seq<int>)
    requires Valid(g)
    ensures Played(g, a + b) == if Played(g, a).Some? then Played(Played(g, a).value, b) else None
    decreases |a|
  {
    if a == [] {
      assert a + b == b;
    } else {
      var m := Move(g, g.current, a[0], true);
      assert (a + b)[0] == a[0] && (a + b)[1..] == a[1..] + b;
      if m.outcome == Continued {
        PlayedAppend(m.next, a[1..], b);
      }
    }
  }

  /**
   * A move into an empty cell that completes no line, dereferences no empty
   * cell and leaves an empty cell passes the turn and changes nothing else.
   */
  lemma PassesTurn(g: State, pos: int)
    requires Valid(g) && 0 <= pos < Size && g.board[pos] == None
    requires CheckWin(g.board[pos := Some(MarkOf(g.current))], MarkOf(g.current)) == NotFound
    requires !IsFull(g.board[pos := Some(MarkOf(g.current))])
    ensures Move(g, g.current, pos, true) == Step(State(g.board[pos := Some(MarkOf(g.current))], 1 - g.current, g.scores), Continued)
  {
  }

  /**
   * X's opening move throws in `checkWin` exactly when its cell starts a
   * line whose next cell is empty: cells 0, 1, 2, 3 and 6. Anywhere else the
   * turn passes to O.
   */
  lemma Openings(s: Scores, pos: int, seated: bool)
    requires Valid(State(EmptyBoard(), 0, s)) && 0 <= pos < Size
    ensures var r := Move(State(EmptyBoard(), 0, s), 0, pos, seated);
      (r.outcome == Crashed <==> pos in {0, 1, 2, 3, 6}) && (r.outcome != Crashed ==> r.outcome == Continued)
  {
    assert pos in {0, 1, 2, 3, 4, 5, 6, 7, 8};
  }

  /** The board of `WinScenario` before its first win: X in 4 and 5, O in 7 and 8. */
  function WinSetup(): (b: Cells)
    ensures |b| == Size
  {
    [None, None, None, None, Some(X), Some(X), None, Some(O), Some(O)]
  }

  /** X4, O7, X5, O8 from a new game each pass the turn. */
  lemma WinOpening(s: Scores)
    requires Valid(State(EmptyBoard(), 0, s))
    ensures Played(State(EmptyBoard(), 0, s), [4, 7, 5, 8]) == Some(State(WinSetup(), 0, s))
  {
    var g0 := State(EmptyBoard(), 0, s);
    var g1 := State(g0.board[4 := Some(X)], 1, s);
    var g2 := State(g1.board[7 := Some(O)], 0, s);
    var g3 := State(g2.board[5 := Some(X)], 1, s);
    PassesTurn(g0, 4);
    PassesTurn(g1, 7);
    PassesTurn(g2, 5);
    PassesTurn(g3, 8);
    var g4 := State(g3.board[8 := Some(O)], 0, s);
    assert g4 == State(WinSetup(), 0, s);
    assert Played(g4, []) == Some(g4);
    assert Played(g3, [8]) == Some(g4);
    assert Played(g2, [5, 8]) == Some(g4);
    assert Played(g1, [7, 5, 8]) == Some(g4);
  }

  /** A move into an empty cell that completes a line before any line dereferences an empty cell wins, and the mover keeps the turn. */
  lemma WinsWhen(g: State, pos: int)
    requires Valid(g) && 0 <= pos < Size && g.board[pos] == None
    requires CheckWin(g.board[pos := Some(MarkOf(g.current))], MarkOf(g.current)) == Found
    ensures Move(g, g.current, pos, true) ==
      Step(State(g.board[pos := Some(MarkOf(g.current))], g.current, Credit(g.scores, g.current)), Won)
  {
  }

  /** X3 on `WinSetup` completes row {3,4,5}, and so does X1 after it, before any line dereferences an empty cell. */
  lemma WinSetupLines()
    ensures CheckWin(WinSetup()[3 := Some(X)], X) == Found
    ensures CheckWin(WinSetup()[3 := Some(X)][1 := Some(X)], X) == Found
  {
    assert WinSetup()[3 := Some(X)] == [None, None, None, Some(X), Some(X), Some(X), None, Some(O), Some(O)];
    assert WinSetup()[3 := Some(X)][1 := Some(X)] == [None, Some(X), None, Some(X), Some(X), Some(X), None, Some(O), Some(O)];
  }

  /**
   * From a new game X4, O7, X5, O8 each pass the turn; X3 then completes row
   * {3,4,5} and raises only `p1Wins`; X keeps the turn and wins again with X1.
   */
  lemma WinScenario(s: Scores)
    requires Valid(State(EmptyBoard(), 0, s))
    ensures Played(State(EmptyBoard(), 0, s), [4, 7, 5, 8]) == Some(State(WinSetup(), 0, s))
    ensures var r := Move(State(WinSetup(), 0, s), 0, 3, true);
      r.outcome == Won && r.next.scores == s.(p1Wins := s.p1Wins + 1) &&
      Move(r.next, 0, 1, true).outcome == Won && Move(r.next, 0, 1, true).next.scores == s.(p1Wins := s.p1Wins + 2)
  {
    WinOpening(s);
    WinSetupLines();
    WinsWhen(State(WinSetup(), 0, s), 3);
    WinsWhen(State(WinSetup()[3 := Some(X)], 0, Credit(s, 0)), 1);
  }

  /** The board of `DrawScenario` halfway: X in 4 and 5, O in 1 and 2. */
  function DrawHalfway(): (b: Cells)
    ensures |b| == Size
  {
    [None, Some(O), Some(O), None, Some(X), Some(X), None, None, None]
  }

  /** The board of `DrawScenario` before the last move: only cell 0 is empty. */
  function DrawSetup(): (b: Cells)
    ensures |b| == Size
  {
    [None, Some(O), Some(O), Some(O), Some(X), Some(X), Some(X), Some(X), Some(O)]
  }

  /** X4, O1, X5, O2 from a new game each pass the turn. */
  lemma DrawFirstHalf(s: Scores)
    requires Valid(State(EmptyBoard(), 0, s))
    ensures Played(State(EmptyBoard(), 0, s), [4, 1, 5, 2]) == Some(State(DrawHalfway(), 0, s))
  {
    var g0 := State(EmptyBoard(), 0, s);
    var g1 := State(g0.board[4 := Some(X)], 1, s);
    var g2 := State(g1.board[1 := Some(O)], 0, s);
    var g3 := State(g2.board[5 := Some(X)], 1, s);
    PassesTurn(g0, 4);
    PassesTurn(g1, 1);
    PassesTurn(g2, 5);
    PassesTurn(g3, 2);
    var g4 := State(g3.board[2 := Some(O)], 0, s);
    assert g4 == State(DrawHalfway(), 0, s);
    assert Played(g4, []) == Some(g4);
    assert Played(g3, [2]) == Some(g4);
    assert Played(g2, [5, 2]) == Some(g4);
    assert Played(g1, [1, 5, 2]) == Some(g4);
  }

  /** Then X7, O8, X6, O3 each pass the turn. */
  lemma DrawSecondHalf(s: Scores)
    requires Valid(State(EmptyBoard(), 0, s))
    ensures Played(State(DrawHalfway(), 0, s), [7, 8, 6, 3]) == Some(State(DrawSetup(), 0, s))
  {
    var g4 := State(DrawHalfway(), 0, s);
    var g5 := State(g4.board[7 := Some(X)], 1, s);
    var g6 := State(g5.board[8 := Some(O)], 0, s);
    var g7 := State(g6.board[6 := Some(X)], 1, s);
    PassesTurn(g4, 7);
    PassesTurn(g5, 8);
    PassesTurn(g6, 6);
    PassesTurn(g7, 3);
    var g8 := State(g7.board[3 := Some(O)], 0, s);
    assert g8 == State(DrawSetup(), 0, s);
    assert Played(g8, []) == Some(g8);
    assert Played(g7, [3]) == Some(g8);
    assert Played(g6, [6, 3]) == Some(g8);
    assert Played(g5, [8, 6, 3]) == Some(g8);
  }

  /** X in cell 0 fills `DrawSetup` without a line and without an empty cell for `checkWin` to dereference. */
  lemma DrawSetupFills()
    ensures CheckWin(DrawSetup()[0 := Some(X)], X) == NotFound && IsFull(DrawSetup()[0 := Some(X)])
  {
    var full := [Some(X), Some(O), Some(O), Some(O), Some(X), Some(X), Some(X), Some(X), Some(O)];
    assert DrawSetup()[0 := Some(X)] == full;
  }

  /** A move into the last empty cell that completes no line and dereferences no empty cell is a draw. */
  lemma DrawsWhen(g: State, pos: int)
    requires Valid(g) && 0 <= pos < Size && g.board[pos] == None
    requires CheckWin(g.board[pos := Some(MarkOf(g.current))], MarkOf(g.current)) == NotFound
    requires IsFull(g.board[pos := Some(MarkOf(g.current))])
    ensures Move(g, g.current, pos, true).outcome == Drawn
  {
  }

  /**
   * From a new game X4, O1, X5, O2, X7, O8, X6, O3 each pass the turn; X0
   * then fills the board with no line: a draw, and only `draws` rises.
   */
  lemma DrawScenario(s: Scores)
    requires Valid(State(EmptyBoard(), 0, s))
    ensures Played(State(EmptyBoard(), 0, s), [4, 1, 5, 2]) == Some(State(DrawHalfway(), 0, s))
    ensures Played(State(DrawHalfway(), 0, s), [7, 8, 6, 3]) == Some(State(DrawSetup(), 0, s))
    ensures var r := Move(State(DrawSetup(), 0, s), 0, 0, true);
      r.outcome == Drawn && r.next.scores == s.(draws := s.draws + 1)
  {
    DrawFirstHalf(s);
    DrawSecondHalf(s);
    DrawSetupFills();
    DrawsWhen(State(DrawSetup(), 0, s), 0);
  }
}

=== FILE: protocol.dfy ===
/**
 * The messages the server exchanges with its two clients (the `type` and
 * the counters of each `GameMessage`, with the text content reduced to what
 * the server acts on) and `Integer.parseInt`, which turns a MOVE's content
 * into a cell index.
 */
module Protocol {
  import opened Wrappers
  import opened Board
  import opened Game

  /** The texts the server sends under the type MESSAGE. */
  datatype Note = Welcome | WaitForOpponent | OpponentMoved

  /** The `type` of an outbound message, with the payload the server computes for it. */
  datatype Kind =
    | Start
    | Text(note: Note)
    | YourTurn
    | InvalidMove
    | MoveMade(position: int, mark: Mark)
    | WinFor(player: int)
    | Draw
    | BothReady
    | OpponentLeft

  /** An outbound `GameMessage`: its type and the three counters it carries. */
  datatype Message = Message(kind: Kind, scores: Scores)

  /** An inbound `GameMessage`: its `type` and `content`, either of which may be null. */
  datatype Inbound = Inbound(kind: Option<string>, content: Option<string>)

  const MinInt: int := -0x8000_0000
  const MaxInt: int := 0x7fff_ffff

  predicate IsDigit(c: char)
  {
    '0' <= c <= '9'
  }

  predicate AllDigits(s: string)
  {
    forall i | 0 <= i < |s| :: IsDigit(s[i])
  }

  /** The value of a string of decimal digits. */
  function Value(s: string): nat
    requires AllDigits(s)
  {
    if s == [] then 0 else Value(s[..|s| - 1]) * 10 + (s[|s| - 1] as int - '0' as int)
  }

  /**
   * `Integer.parseInt(s)`: an optional sign followed by at least one digit,
   * whose value fits in 32 bits; anything else, null included, is a
   * NumberFormatException (`None`).
   */
  function ParseInt(s: Option<string>): (r: Option<int>)
    ensures r.Some? ==> MinInt <= r.value <= MaxInt
    ensures r.Some? ==> s.Some? && |s.value| > 0 && (IsDigit(s.value[0]) || s.value[0] in {'-', '+'})
    ensures r.Some? && IsDigit(s.value[0]) ==> AllDigits(s.value) && r.value == Value(s.value)
    ensures r.Some? && s.value[0] == '-' ==> |s.value| > 1 && AllDigits(s.value[1..]) && r.value == 0 - Value(s.value[1..]) as int
    ensures r.Some? && s.value[0] == '+' ==> |s.value| > 1 && AllDigits(s.value[1..]) && r.value == Value(s.value[1..])
    ensures s.Some? && |s.value| > 0 && AllDigits(s.value) && Value(s.value) <= MaxInt ==> r == Some(Value(s.value))
    ensures s.Some? && |s.value| > 1 && s.value[0] == '+' && AllDigits(s.value[1..]) && Value(s.value[1..]) <= MaxInt ==>
      r == Some(Value(s.value[1..]))
    ensures s.Some? && |s.value| > 1 && s.value[0] == '-' && AllDigits(s.value[1..]) && MinInt <= 0 - Value(s.value[1..]) ==>
      r == Some(0 - Value(s.value[1..]))
  {
    match s
    case None => None
    case Some(t) =>
      if t == [] then None
      else
        var signed := t[0] == '-' || t[0] == '+';
        var digits := if signed then t[1..] else t;
        if digits == [] || !AllDigits(digits) then None
        else
          var v: int := if t[0] == '-' then 0 - Value(digits) as int else Value(digits);
          if MinInt <= v <= MaxInt then Some(v) else None
  }

  /** `String.valueOf(n)` for a non-negative `n`, as the client formats a MOVE: no leading zero. */
  function Decimal(n: nat): (s: string)
    ensures |s| > 0 && AllDigits(s) && Value(s) == n
    ensures s[0] == '0' ==> n == 0
  {
    var d := ['0' + (n % 10) as char];
    if n < 10 then d else Decimal(n / 10) + d
  }

  /** A cell index the client formats is parsed back to the same index. */
  lemma ParseDecimal(n: nat)
    requires n <= MaxInt
    ensures ParseInt(Some(Decimal(n))) == Some(n)
  {
    var t := Decimal(n);
    assert IsDigit(t[0]);
  }
}

=== FILE: server.dfy ===
/**
 * The server object: the two player slots, the board array, the turn, the
 * three counters, and a ghost outbox that records every `send` in order.
 * Each `synchronized` method, and `disconnect`, is one atomic step.
 */
module Server {
  import opened Wrappers
  import opened Board
  import opened Game
  import opened Protocol

  /** Message `msg` written to the player in slot `to`. */
  datatype Delivery = Delivery(to: int, msg: Message)

  /** The deliveries of one message to each slot of `slots`, in that order. */
  function Deliver(slots: seq<int>, msg: Message): seq<Delivery>
  {
    seq(|slots|, k requires 0 <= k < |slots| => Delivery(slots[k], msg))
  }

  /** Regrouping four pieces of the outbox. */
  lemma Regroup<T>(a: seq<T>, b: seq<T>, c: seq<T>, d: seq<T>)
    ensures a + b + c + d == a + (b + c + d)
  {
  }

  /** Extending an extension of `a` extends `a`. */
  lemma PrefixTrans<T>(a: seq<T>, b: seq<T>, c: seq<T>)
    requires a <= b && b <= c
    ensures a <= c
  {
    assert a == b[..|a|] == c[..|b|][..|a|];
  }

  /**
   * Whether a call of `handleMove` by `player` that took `step` threw: the
   * INVALID_MOVE reply or YOUR_TURN went to an empty slot, the index was out
   * of range, `checkWin` dereferenced an empty cell, or the winner's name was
   * read from an empty slot.
   */
  predicate Throws(step: Step, player: int, occupied: seq<bool>)
    requires (player == 0 || player == 1) && |occupied| == 2
  {
    match step.outcome
    case Rejected => !occupied[player]
    case OutOfRange => true
    case Crashed => true
    case WinnerGone => true
    case Continued => !occupied[1 - player]
    case _ => false
  }

  /**
   * What the second half of `handleMove` sends once the mark is placed: WIN
   * or DRAW to every live slot, or YOUR_TURN to the other player and then a
   * MESSAGE to every live slot; nothing once an exception is thrown.
   */
  function Verdict(step: Step, player: int, live: seq<int>, occupied: seq<bool>): seq<Delivery>
    requires (player == 0 || player == 1) && |occupied| == 2
  {
    match step.outcome
    case Won => Deliver(live, Message(WinFor(player), step.next.scores))
    case Drawn => Deliver(live, Message(Draw, step.next.scores))
    case Continued =>
      if occupied[1 - player] then
        [Delivery(1 - player, Message(YourTurn, step.next.scores))] +
        Deliver(live, Message(Text(OpponentMoved), step.next.scores))
      else []
    case _ => []
  }

  /**
   * What `handleMove(player, pos)` from game state `g` sends when it takes
   * `step`: INVALID_MOVE to the mover alone on a rejection; nothing on an
   * index out of range; otherwise MOVE and a MESSAGE to every live slot,
   * then the verdict.
   */
  function Sends(g: State, player: int, pos: int, step: Step, live: seq<int>, occupied: seq<bool>): seq<Delivery>
    requires (player == 0 || player == 1) && |occupied| == 2
  {
    match step.outcome
    case Rejected => if occupied[player] then [Delivery(player, Message(InvalidMove, g.scores))] else []
    case OutOfRange => []
    case _ =>
      Deliver(live, Message(MoveMade(pos, MarkOf(player)), g.scores)) +
      Deliver(live, Message(Text(WaitForOpponent), g.scores)) +
      Verdict(step, player, live, occupied)
  }

  /**
   * What `startNewGame` sends: START to every live slot, then, unless reading
   * the name from an empty slot 0 threw (`welcomed` false), a WELCOME
   * MESSAGE to every live slot and YOUR_TURN to slot 0.
   */
  function NewGameSends(live: seq<int>, welcomed: bool, s: Scores): seq<Delivery>
  {
    if welcomed then
      Deliver(live, Message(Start, s)) + Deliver(live, Message(Text(Welcome), s)) + [Delivery(0, Message(YourTurn, s))]
    else Deliver(live, Message(Start, s))
  }

  /**
   * What one `in.readObject()` yields: a message, a null object, or an
   * exception (an `EOFException` at the end of the stream among them).
   */
  datatype Read = Got(msg: Inbound) | NullObject | ReadFailed

  /** A connection's reader: its slot index, the name it submitted and whether it is still connected. */
  class Player {
    const index: int
    var name: Option<string>
    var isConnected: bool

    /**
     * The field initialiser `"Player " + (index + 1)` runs before the body
     * assigns `index`, while `index` still holds 0: both players start as
     * "Player 1", and the name is never null until a NAME sets it.
     */
    constructor (index: int)
      ensures this.index == index && name == Some("Player 1") && isConnected
    {
      var unassignedIndex := 0;
      assert "Player " + Decimal(unassignedIndex + 1) == "Player 1";
      name := Some("Player " + Decimal(unassignedIndex + 1));
      isConnected := true;
      this.index := index;
    }
  }

  class TicTacToeServer {
    const players: array<Player?>
    var board: array<Cell>
    var currentPlayer: int
    var p1Wins: nat
    var p2Wins: nat
    var draws: nat
    /** Every message sent so far, with its recipient. */
    ghost var outbox: seq<Delivery>

    ghost predicate Valid()
      reads this`board, this`currentPlayer, this`p1Wins, this`p2Wins, this`draws, players
    {
      players.Length == 2 && board.Length == Size &&
      (currentPlayer == 0 || currentPlayer == 1) &&
      (players[0] != null ==> players[0].index == 0) && (players[1] != null ==> players[1].index == 1)
    }

    /** The players sitting in the slots. */
    ghost function Seated(): set<Player?>
      reads players
    {
      set i | 0 <= i < players.Length :: players[i]
    }

    function Counters(): Scores
      reads this`p1Wins, this`p2Wins, this`draws
    {
      Game.Scores(p1Wins, p2Wins, draws)
    }

    /** The game part of the state as a value. */
    ghost function Snapshot(): State
      reads this`board, this`currentPlayer, this`p1Wins, this`p2Wins, this`draws, board
    {
      State(board[..], currentPlayer, Counters())
    }

    /** `broadcast` writes to slot `i`: it is occupied, connected, and does not hold `gone`. */
    ghost predicate Reaches(i: int, gone: Player?)
      requires players.Length == 2 && 0 <= i < 2
      reads players, Seated()
    {
      players[i] != null && players[i] != gone && players[i].isConnected
    }

    /** The slots below `n` that `broadcast` writes to, in slot order. */
    ghost function Reached(n: nat, gone: Player?): seq<int>
      requires players.Length == 2 && n <= 2
      reads players, Seated()
    {
      (if 0 < n && Reaches(0, gone) then [0] else []) + (if 1 < n && Reaches(1, gone) then [1] else [])
    }

    /**
     * The slots reached skipping `gone` are, in increasing order and each
     * once, exactly the occupied connected slots that do not hold `gone`.
     */
    lemma ReachedExactly(gone: Player?)
      requires players.Length == 2
      ensures var s := Reached(2, gone);
        (forall i :: i in s <==> 0 <= i < 2 && Reaches(i, gone)) &&
        (forall j, k | 0 <= j < k < |s| :: s[j] < s[k])
    {
    }

    /** The slots a broadcast reaches. */
    ghost function Recipients(): seq<int>
      requires players.Length == 2
      reads players, Seated()
    {
      Reached(2, null)
    }

    /** Both slots are occupied and both names are non-null (the BOTH_READY test). */
    predicate BothNamed()
      reads players, Seated()
      requires players.Length == 2
    {
      players[0] != null && players[1] != null && players[0].name != None && players[1].name != None
    }

    /** `p` has left: marked disconnected and its slot emptied. */
    ghost predicate Left(p: Player)
      reads p, players
      requires players.Length == 2 && (p.index == 0 || p.index == 1)
    {
      !p.isConnected && players[p.index] == null
    }

    /** Which slots hold a player. */
    ghost function Occupied(): (o: seq<bool>)
      requires players.Length == 2
      reads players
      ensures |o| == 2
    {
      [players[0] != null, players[1] != null]
    }

    /** `new TicTacToeServer()`: empty slots, an empty board, X to move, all counters 0. */
    constructor ()
      ensures Valid() && fresh(players) && fresh(board)
      ensures players[..] == [null, null]
      ensures Snapshot() == State(EmptyBoard(), 0, Game.Scores(0, 0, 0))
      ensures outbox == []
    {
      players := new Player?[2](_ => null);
      board := new Cell[Size](_ => None);
      currentPlayer := 0;
      p1Wins, p2Wins, draws := 0, 0, 0;
      outbox := [];
    }

    /** `players[i].send(msg)`, which throws when the slot is empty. */
    method SendTo(i: int, msg: Message) returns (thrown: bool)
      requires Valid() && (i == 0 || i == 1)
      modifies this`outbox
      ensures Seated() == old(Seated())
      ensures thrown <==> players[i] == null
      ensures outbox == old(outbox) + (if thrown then [] else [Delivery(i, msg)])
    {
      thrown := players[i] == null;
      if !thrown {
        outbox := outbox + [Delivery(i, msg)];
      }
    }

    /** `broadcast(msg)`: one send to every occupied, connected slot, in slot order. */
    method Broadcast(msg: Message)
      requires Valid()
      modifies this`outbox
      ensures Seated() == old(Seated())
      ensures outbox == old(outbox) + Deliver(Recipients(), msg)
    {
      for i := 0 to 2
        invariant outbox == old(outbox) + Deliver(Reached(i, null), msg)
      {
        var p := players[i];
        if p != null && p.isConnected {
          assert Deliver(Reached(i + 1, null), msg) == Deliver(Reached(i, null), msg) + [Delivery(i, msg)];
          outbox := outbox + [Delivery(i, msg)];
        } else {
          assert Reached(i + 1, null) == Reached(i, null);
        }
      }
    }

    /** `checkWin(mark)`: the eight lines in order, returning at the first line that decides. */
    method CheckWin(mark: Mark) returns (r: Scan)
      requires Valid()
      ensures r == Board.CheckWin(board[..], mark)
    {
      var k := 0;
      while k < |Lines|
        invariant 0 <= k <= |Lines|
        invariant ScanFrom(board[..], mark, k) == Board.CheckWin(board[..], mark)
      {
        var (x, y, z) := Lines[k];
        if board[x] != None && board[x] == Some(mark) {
          if board[y] == None {
            return NullDeref;
          }
          if board[y] == Some(mark) {
            if board[z] == None {
              return NullDeref;
            }
            if board[z] == Some(mark) {
              return Found;
            }
          }
        }
        k := k + 1;
      }
      return NotFound;
    }

    /** `isDraw()`: false at the first empty cell. */
    method IsDraw() returns (full: bool)
      requires Valid()
      ensures full <==> IsFull(board[..])
    {
      for i := 0 to board.Length
        invariant forall j | 0 <= j < i :: board[j] != None
      {
        if board[i] == None {
          return false;
        }
      }
      return true;
    }

    /**
     * Lines 72-75 of `handleMove`: the winner's name is read from the mover's
     * slot, which throws when the slot is empty; otherwise the mover's win
     * counter rises and WIN goes to every live slot.
     */
    method DeclareWin(playerIndex: int) returns (thrown: bool)
      requires Valid() && (playerIndex == 0 || playerIndex == 1)
      modifies this`p1Wins, this`p2Wins, this`outbox
      ensures Valid() && Seated() == old(Seated())
      ensures thrown <==> players[playerIndex] == null
      ensures thrown ==> Counters() == old(Counters()) && outbox == old(outbox)
      ensures !thrown ==> Counters() == Credit(old(Counters()), playerIndex)
      ensures !thrown ==> outbox == old(outbox) + Deliver(Recipients(), Message(WinFor(playerIndex), Counters()))
    {
      if players[playerIndex] == null {
        // NullPointerException from players[playerIndex].name
        return true;
      }
      thrown := false;
      if playerIndex == 0 {
        p1Wins := p1Wins + 1;
      } else {
        p2Wins := p2Wins + 1;
      }
      Broadcast(Message(WinFor(playerIndex), Counters()));
    }

    /** Lines 78-80 of `handleMove`: `draws` rises and DRAW goes to every live slot. */
    method DeclareDraw()
      requires Valid()
      modifies this`draws, this`outbox
      ensures Valid() && Seated() == old(Seated())
      ensures Counters() == old(Counters()).(draws := old(draws) + 1)
      ensures outbox == old(outbox) + Deliver(Recipients(), Message(Draw, Counters()))
    {
      draws := draws + 1;
      Broadcast(Message(Draw, Counters()));
    }

    /**
     * Lines 84-86 of `handleMove`: the turn passes, YOUR_TURN goes to the
     * new current player (throwing when that slot is empty), then a MESSAGE
     * to every live slot.
     */
    method PassTurn() returns (thrown: bool)
      requires Valid()
      modifies this`currentPlayer, this`outbox
      ensures Valid() && Seated() == old(Seated())
      ensures currentPlayer == 1 - old(currentPlayer)
      ensures thrown <==> players[currentPlayer] == null
      ensures outbox == old(outbox) +
        if thrown then []
        else [Delivery(currentPlayer, Message(YourTurn, Counters()))] + Deliver(Recipients(), Message(Text(OpponentMoved), Counters()))
    {
      currentPlayer := 1 - currentPlayer;
      thrown := SendTo(currentPlayer, Message(YourTurn, Counters()));
      if thrown {
        return;
      }
      Broadcast(Message(Text(OpponentMoved), Counters()));
    }

    /**
     * Lines 78-86 of `handleMove`, once `checkWin` answered false: the method
     * takes the step `Conclude` describes and sends its verdict.
     */
    method Conclude(playerIndex: int) returns (thrown: bool, ghost step: Step)
      requires Valid() && (playerIndex == 0 || playerIndex == 1) && playerIndex == currentPlayer
      modifies this`draws, this`currentPlayer, this`outbox
      ensures Valid() && Seated() == old(Seated())
      ensures step == Game.Conclude(old(Snapshot())) && Snapshot() == step.next
      ensures thrown <==> Throws(step, playerIndex, Occupied())
      ensures outbox == old(outbox) + Verdict(step, playerIndex, Recipients(), Occupied())
    {
      step := Game.Conclude(Snapshot());
      var full := IsDraw();
      if full {
        DeclareDraw();
        return false, step;
      }
      thrown := PassTurn();
    }

    /**
     * Lines 71-86 of `handleMove`, with the mover's mark on the board: the
     * method takes the step `Settle` describes and sends its verdict.
     */
    method Settle(playerIndex: int) returns (thrown: bool, ghost step: Step)
      requires Valid() && (playerIndex == 0 || playerIndex == 1) && playerIndex == currentPlayer
      modifies this`p1Wins, this`p2Wins, this`draws, this`currentPlayer, this`outbox
      ensures Valid() && Seated() == old(Seated())
      ensures step == Game.Settle(old(Snapshot()), playerIndex, Occupied()[playerIndex]) && Snapshot() == step.next
      ensures thrown <==> Throws(step, playerIndex, Occupied())
      ensures outbox == old(outbox) + Verdict(step, playerIndex, Recipients(), Occupied())
    {
      step := Game.Settle(Snapshot(), playerIndex, players[playerIndex] != null);
      var line := CheckWin(MarkOf(playerIndex));
      if line == NullDeref {
        return true, step;
      }
      if line == Found {
        thrown := DeclareWin(playerIndex);
        return;
      }
      thrown, step := Conclude(playerIndex);
    }

    /**
     * Lines 65-86 of `handleMove`, for a move that passed both checks: the
     * mark goes on the board, MOVE and a MESSAGE go to every live slot, and
     * the second half runs.
     */
    method Play(playerIndex: int, position: int) returns (thrown: bool, ghost step: Step)
      requires Valid() && (playerIndex == 0 || playerIndex == 1) && playerIndex == currentPlayer
      requires 0 <= position < Size && board[position] == None
      modifies board, this`p1Wins, this`p2Wins, this`draws, this`currentPlayer, this`outbox
      ensures Valid() && Seated() == old(Seated())
      ensures step == Move(old(Snapshot()), playerIndex, position, Occupied()[playerIndex]) && Snapshot() == step.next
      ensures thrown <==> Throws(step, playerIndex, Occupied())
      ensures outbox == old(outbox) + Sends(old(Snapshot()), playerIndex, position, step, Recipients(), Occupied())
    {
      ghost var g := Snapshot();
      ghost var before := outbox;
      var mark := MarkOf(playerIndex);
      board[position] := Some(mark);
      Broadcast(Message(MoveMade(position, mark), Counters()));
      Broadcast(Message(Text(WaitForOpponent), Counters()));
      assert Snapshot() == g.(board := g.board[position := Some(mark)]);
      thrown, step := Settle(playerIndex);
      Regroup(before, Deliver(Recipients(), Message(MoveMade(position, mark), g.scores)),
        Deliver(Recipients(), Message(Text(WaitForOpponent), g.scores)), Verdict(step, playerIndex, Recipients(), Occupied()));
    }

    /**
     * `handleMove(playerIndex, position)`: the game state takes the step
     * `Move` describes; the method throws and sends as that step says.
     */
    method HandleMove(playerIndex: int, position: int) returns (thrown: bool, ghost step: Step)
      requires Valid() && (playerIndex == 0 || playerIndex == 1)
      modifies board, this`p1Wins, this`p2Wins, this`draws, this`currentPlayer, this`outbox
      ensures Valid() && Seated() == old(Seated())
      ensures step == Move(old(Snapshot()), playerIndex, position, Occupied()[playerIndex]) && Snapshot() == step.next
      ensures thrown <==> Throws(step, playerIndex, Occupied())
      ensures outbox == old(outbox) + Sends(old(Snapshot()), playerIndex, position, step, Recipients(), Occupied())
    {
      step := Move(Snapshot(), playerIndex, position, players[playerIndex] != null);
      if playerIndex != currentPlayer {
        thrown := SendTo(playerIndex, Message(InvalidMove, Counters()));
        return;
      }
      if !(0 <= position < board.Length) {
        // ArrayIndexOutOfBoundsException from board[position]
        return true, step;
      }
      if board[position] != None {
        thrown := SendTo(playerIndex, Message(InvalidMove, Counters()));
        return;
      }
      thrown, step := Play(playerIndex, position);
    }

    /**
     * `startNewGame()`: a new board array, X to move, the counters kept;
     * START to every live slot, then a WELCOME MESSAGE to every live slot
     * and YOUR_TURN to slot 0. The WELCOME text reads `players[0].name`, so
     * an empty slot 0 throws once START has gone out.
     */
    method StartNewGame() returns (thrown: bool)
      requires Valid()
      modifies this`board, this`currentPlayer, this`outbox
      ensures Valid() && fresh(board) && Seated() == old(Seated())
      ensures Snapshot() == NewGame(old(Snapshot()))
      ensures thrown <==> players[0] == null
      ensures outbox == old(outbox) + NewGameSends(Recipients(), !thrown, Counters())
    {
      board := new Cell[Size](_ => None);
      currentPlayer := 0;
      Broadcast(Message(Start, Counters()));
      if players[currentPlayer] == null {
        // NullPointerException from players[currentPlayer].name
        return true;
      }
      Broadcast(Message(Text(Welcome), Counters()));
      thrown := SendTo(currentPlayer, Message(YourTurn, Counters()));
      assert board[..] == EmptyBoard();
      Regroup(old(outbox), Deliver(Recipients(), Message(Start, Counters())),
        Deliver(Recipients(), Message(Text(Welcome), Counters())), [Delivery(0, Message(YourTurn, Counters()))]);
    }

    /**
     * `disconnect()` of player `p`: `isConnected` is cleared before the
     * OPPONENT_LEFT broadcast, which therefore reaches every live slot but
     * `p`'s; then `p`'s slot is emptied, whoever sits in it.
     */
    method Disconnect(p: Player)
      requires Valid() && (p.index == 0 || p.index == 1)
      modifies p`isConnected, players, this`outbox
      ensures Valid() && Snapshot() == old(Snapshot()) && Left(p)
      ensures players[1 - p.index] == old(players[1 - p.index])
      ensures outbox == old(outbox) + Deliver(old(Reached(2, p)), Message(OpponentLeft, Counters()))
    {
      ghost var reached := Reached(2, p);
      p.isConnected := false;
      assert Recipients() == reached;
      Broadcast(Message(OpponentLeft, Counters()));
      players[p.index] := null;
    }

    /**
     * One pass of the accept loop for slot `i`: when the slot is empty or
     * its player has disconnected, a new `Player` takes it, and a new player
     * in slot 1 starts a new game. The socket and the reader thread are not
     * modelled.
     */
    method Seat(i: int) returns (seated: bool, thrown: bool)
      requires Valid() && (i == 0 || i == 1)
      modifies players, this`board, this`currentPlayer, this`outbox
      ensures Valid() && players[1 - i] == old(players[1 - i])
      ensures seated <==> old(players[i] == null || !players[i].isConnected)
      ensures seated ==> fresh(players[i]) && players[i].isConnected && players[i].name == Some("Player 1")
      ensures !seated ==> players[i] == old(players[i])
      ensures !(seated && i == 1) ==> !thrown && Snapshot() == old(Snapshot()) && outbox == old(outbox)
      ensures seated && i == 1 ==> Snapshot() == NewGame(old(Snapshot())) && (thrown <==> players[0] == null)
      ensures seated && i == 1 ==> outbox == old(outbox) + NewGameSends(Recipients(), !thrown, Counters())
    {
      thrown := false;
      seated := players[i] == null || !players[i].isConnected;
      if seated {
        var q := new Player(i);
        players[i] := q;
        if i == 1 {
          thrown := StartNewGame();
        }
      }
    }

    /**
     * `case "NAME"`: the name is set (possibly to null), and BOTH_READY goes
     * to every live slot when both slots hold a player with a non-null name.
     */
    method Rename(p: Player, content: Option<string>)
      requires Valid() && (p.index == 0 || p.index == 1)
      modifies p`name, this`outbox
      ensures Valid() && Snapshot() == old(Snapshot()) && players[..] == old(players[..])
      ensures p.name == content
      ensures outbox == old(outbox) + if BothNamed() then Deliver(Recipients(), Message(BothReady, Counters())) else []
    {
      p.name := content;
      if BothNamed() {
        Broadcast(Message(BothReady, Counters()));
      }
    }

    /**
     * `case "MOVE"` and the `catch` around it: content that `parseInt`
     * rejects disconnects `p`; otherwise `handleMove(p.index, pos)` runs and
     * an exception from it disconnects `p`. `stop` says the reader loop ends.
     */
    method MoveCommand(p: Player, content: Option<string>) returns (stop: bool, ghost evs: seq<Event>)
      requires Valid() && (p.index == 0 || p.index == 1)
      modifies board, this`p1Wins, this`p2Wins, this`draws, this`currentPlayer, this`outbox, p`isConnected, players
      ensures Valid() && Players(evs) && Snapshot() == Replay(old(Snapshot()), evs) && old(outbox) <= outbox
      ensures stop ==> Left(p)
      ensures !stop ==> players[..] == old(players[..]) && p.isConnected == old(p.isConnected)
      ensures ParseInt(content) == None ==> stop && evs == []
      ensures ParseInt(content).Some? ==>
        var pos := ParseInt(content).value;
        evs == [MoveBy(p.index, pos, old(Occupied())[p.index])] &&
        (stop <==> Throws(Move(old(Snapshot()), p.index, pos, old(Occupied())[p.index]), p.index, old(Occupied())))
    {
      var pos := ParseInt(content);
      if pos == None {
        // NumberFormatException
        Disconnect(p);
        return true, [];
      }
      var thrown, step := HandleMove(p.index, pos.value);
      evs := [MoveBy(p.index, pos.value, old(players[p.index]) != null)];
      assert Replay(step.next, []) == step.next;
      if thrown {
        Disconnect(p);
        return true, evs;
      }
      stop := false;
    }

    /** `case "RESTART"`: a new game when both slots hold a player. */
    method Restart() returns (ghost evs: seq<Event>)
      requires Valid()
      modifies this`board, this`currentPlayer, this`outbox
      ensures Valid() && (board == old(board) || fresh(board)) && Seated() == old(Seated()) && old(outbox) <= outbox
      ensures evs == if old(players[0] != null && players[1] != null) then [Event.Restart] else []
      ensures Snapshot() == Replay(old(Snapshot()), evs)
      ensures evs == [] ==> outbox == old(outbox)
      ensures evs != [] ==> outbox == old(outbox) + NewGameSends(Recipients(), true, Counters())
    {
      evs := [];
      if players[0] != null && players[1] != null {
        // players[0] is not null, so startNewGame does not throw
        var _ := StartNewGame();
        evs := [Event.Restart];
        assert Replay(Snapshot(), []) == Snapshot();
      }
    }

    /**
     * One message of `run()` for player `p`: the `switch` on its type, with
     * the `catch` that disconnects on an exception. A null type throws; an
     * unknown type is ignored. `stop` says the reader loop ends; `evs` are
     * the game events the message caused.
     */
    method Dispatch(p: Player, m: Inbound) returns (stop: bool, ghost evs: seq<Event>)
      requires Valid() && (p.index == 0 || p.index == 1)
      modifies board, this`board, this`p1Wins, this`p2Wins, this`draws, this`currentPlayer, this`outbox
      modifies players, p`name, p`isConnected
      ensures Valid() && (board == old(board) || fresh(board)) && old(outbox) <= outbox
      ensures Players(evs) && |evs| <= 1 && Snapshot() == Replay(old(Snapshot()), evs)
      ensures stop ==> Left(p)
      ensures m.kind == None || m.kind == Some("EXIT") ==> stop && evs == []
      ensures m.kind == Some("NAME") ==> !stop && evs == [] && p.name == m.content
      ensures m.kind == Some("MOVE") ==>
        evs == if ParseInt(m.content) == None then [] else [MoveBy(p.index, ParseInt(m.content).value, old(Occupied())[p.index])]
      ensures m.kind == Some("RESTART") ==>
        !stop && evs == if old(players[0] != null && players[1] != null) then [Event.Restart] else []
      ensures m.kind.Some? && m.kind.value !in {"NAME", "MOVE", "RESTART", "EXIT"} ==>
        !stop && evs == [] && outbox == old(outbox)
    {
      match m.kind {
        case None =>
          // switch on a null String: NullPointerException
          Disconnect(p);
          return true, [];
        case Some(kind) =>
          if kind == "NAME" {
            Rename(p, m.content);
            return false, [];
          } else if kind == "MOVE" {
            stop, evs := MoveCommand(p, m.content);
          } else if kind == "RESTART" {
            evs := Restart();
            return false, evs;
          } else if kind == "EXIT" {
            Disconnect(p);
            return true, [];
          } else {
            return false, [];
          }
      }
    }

    /**
     * One turn of the reader loop: `in.readObject()` and the message it
     * yields. A null object ends the loop without a disconnect; a failed
     * read is caught and disconnects `p`.
     */
    method Receive(p: Player, r: Read) returns (stop: bool, ghost evs: seq<Event>)
      requires Valid() && (p.index == 0 || p.index == 1)
      modifies board, this`board, this`p1Wins, this`p2Wins, this`draws, this`currentPlayer, this`outbox
      modifies players, p`name, p`isConnected
      ensures Valid() && (board == old(board) || fresh(board)) && old(outbox) <= outbox
      ensures Players(evs) && |evs| <= 1 && Snapshot() == Replay(old(Snapshot()), evs)
      ensures NoneDecreased(old(Counters()), Counters()) && Total(Counters()) <= Total(old(Counters())) + 1
      ensures !r.Got? ==> stop && evs == []
      ensures r == NullObject ==>
        Snapshot() == old(Snapshot()) && outbox == old(outbox) && players[..] == old(players[..]) && p.isConnected == old(p.isConnected)
      ensures stop ==> r == NullObject || Left(p)
      ensures r == ReadFailed ==> Left(p)
    {
      match r {
        case NullObject =>
          return true, [];
        case ReadFailed =>
          Disconnect(p);
          return true, [];
        case Got(m) =>
          stop, evs := Dispatch(p, m);
      }
    }

    /**
     * `run()` of player `p` over what its stream yields, one atomic step per
     * read: the loop ends at a null object, a failed read, an exception or
     * EXIT, and in each case but the first `p` has left. No counter ever
     * goes down, each read adds at most one to their total, and nothing
     * sent is ever taken back.
     */
    method Run(p: Player, input: seq<Read>) returns (consumed: nat)
      requires Valid() && (p.index == 0 || p.index == 1)
      modifies board, this`board, this`p1Wins, this`p2Wins, this`draws, this`currentPlayer, this`outbox
      modifies players, p`name, p`isConnected
      ensures Valid() && consumed <= |input| && old(outbox) <= outbox
      ensures NoneDecreased(old(Counters()), Counters()) && Total(Counters()) <= Total(old(Counters())) + consumed
      ensures forall k | 0 <= k < consumed - 1 :: input[k].Got?
      ensures consumed < |input| ==> 0 < consumed && (input[consumed - 1] == NullObject || Left(p))
      ensures 0 < consumed && input[consumed - 1] == ReadFailed ==> Left(p)
    {
      consumed := 0;
      var stop := false;
      while consumed < |input| && !stop
        invariant Valid() && consumed <= |input| && old(outbox) <= outbox
        invariant board == old(board) || fresh(board)
        invariant NoneDecreased(old(Counters()), Counters()) && Total(Counters()) <= Total(old(Counters())) + consumed
        invariant forall k | 0 <= k < consumed - (if stop then 1 else 0) :: input[k].Got?
        invariant stop ==> 0 < consumed && (input[consumed - 1] == NullObject || Left(p))
        invariant 0 < consumed && input[consumed - 1] == ReadFailed ==> Left(p)
      {
        ghost var sent := outbox;
        ghost var evs;
        stop, evs := Receive(p, input[consumed]);
        PrefixTrans(old(outbox), sent, outbox);
        consumed := consumed + 1;
      }
    }
  }
}

=== FILE: wrappers.dfy ===
/** Optional values: the model's stand-in for a Java reference that may be null. */
module Wrappers {
  datatype Option<+T> = None | Some(value: T)
}
